=== FILE: README.md ===
# Mvar: a one-slot synchronising cell, modelled critical section by critical section

`Mvar<T>` (src/lib.rs) is a Rust port of Haskell's `MVar`. It is a box that is either
empty or full, shared between threads. It is built from a `Mutex<Option<T>>` and two
condition variables. `full` wakes threads waiting for a value. `empty` wakes threads
waiting for room. Every public operation (`is_empty`, `take`, `try_take`, `put`,
`try_put`, `swap`, `read`, `try_read`) runs as one critical section over the
`Option<T>`, or as a loop of such sections separated by waits.

This project models each critical section as a pure step over a cell
`Cell(slot: Empty | Full(v), poisoned)`. A step has one of three outcomes:

- `Done(result, slot, notified)`: what the call returns, what the slot holds afterwards, and which condition variable was `notify_one`'d, if any.
- `Wait(signal)`: the call sleeps on that condition variable and the slot is unchanged. When woken, it runs the same critical section again, so one step function covers both the first attempt and every retry.
- `LockError`: the mutex is poisoned. Every `lock()?` and `wait(..)?` returns the error and changes nothing.

Modules:

- `Mvar` (mvar.dfy): the slot, the cell, the outcomes, the three constructors and the eight operations. Each try-variant is specified against its blocking partner: it answers where the blocking call would wait. `read` is specified against `take`, and `swap` against a `take` followed by a `put`.
- `Trace` (trace.dfy): `Step`, one dispatcher for all operations, and `Execute`, which runs a list of calls on one thread. Proved over such runs:
  - the cell is a one-place FIFO buffer (`Conservation`);
  - its notifications alternate between `full` and `empty`, in step with fills and drains (`NotificationsAlternate`);
  - the round trips hold;
  - the `put_once` and `put_twice` scenarios give the results the tests assert;
  - other sequential scenarios, for the try-variants and `swap`, give the results their contracts promise.
- `Wakeup` (wakeup.dfy): how waits pair with notifications. It also holds the `swap` finding below and the corrected `swap`.
- `Schedule` (schedule.dfy): the two tests as two threads. A producer puts a list of values and a consumer takes them, under an arbitrary schedule of critical sections. Over every schedule the consumer gets the producer's values in order, and the pair never deadlocks.

`take` and `read` wait on `full` (src/lib.rs:60, 115), and every fill notifies `full`
(src/lib.rs:78, 91). A `swap` on an empty cell also needs a fill before it can proceed,
yet it waits on `empty` (src/lib.rs:101). `Mvar.Swap` and `Trace.Step` follow the code
as written. The mismatch is logged under Findings.

## Model

| member | source | states |
|---|---|---|
| Mvar.Constructors | src/lib.rs:23-47 | `default()` is `empty()`. `empty()` builds a cell that `is_empty` reports empty and `try_read` finds holding nothing. `new(v)` builds a cell that holds `v`. |
| Mvar.IsEmpty | src/lib.rs:49-51 | Answers true exactly when `try_read` would find nothing. Never waits, never changes the slot, never notifies. Errors exactly when the lock is poisoned. |
| Mvar.Take | src/lib.rs:53-62 | On `Full(v)`: returns `v`, leaves the slot empty and notifies `empty`. On an empty cell: waits on `full`, slot untouched. Errors exactly when poisoned. |
| Mvar.TryTake | src/lib.rs:64-71 | Never waits. Where `take` would wait, returns `None` with slot untouched and no notification. Where `take` completes, returns `Some` of the same value, with the same slot and notification. |
| Mvar.Put | src/lib.rs:73-83 | On an empty cell: stores the value and notifies `full`. On a full cell: waits on `empty`, the held value untouched. Errors exactly when poisoned. |
| Mvar.TryPut | src/lib.rs:85-93 | Never waits. Where `put` would wait, returns false, keeps the old value, drops the new one and notifies nothing. Where `put` completes, returns true with `put`'s slot and notification. |
| Mvar.Swap | src/lib.rs:95-105 | On `Full(old)`: returns `old` and leaves `Full(new)` with no notification. The result and slot are those of a `take` followed by a `put(new)`, without the empty moment in between. On an empty cell: waits on `empty`, as written. |
| Mvar.Read | src/lib.rs:108-117 | On a full cell: returns the value `take` would return, leaving the slot as it was and notifying nothing. On an empty cell: waits on `full`. |
| Mvar.TryRead | src/lib.rs:119-122 | Never waits. Returns `None` with slot untouched where `read` would wait, and `Some` of `read`'s value otherwise, never changing the slot. |
| Mvar.PoisonedCellRefusesAll | src/lib.rs:49-122 | On a poisoned lock every operation returns the lock error. |
| Trace.Step | src/lib.rs:49-122 | For any operation: errors exactly when poisoned. Only `take`, `put`, `swap` and `read` ever wait. A notification is sent exactly when the slot changes state, `full` on a fill and `empty` on a drain. A completed swap leaves the cell full. The queries leave the slot alone. No value is lost or invented. |
| Trace.Execute | src/lib.rs:49-122 | A single-thread run. A completed first call is logged first, with its critical section's reply and notification. A first call that waits or meets a poisoned lock ends the run there, with nothing logged and the cell unchanged. The log holds one event per completed call, in call order; a `Blocked` stop names a blocking call that waits on the final cell; poisoning never changes. |
| Trace.ExecuteFirst | src/lib.rs:49-122 | After a completed first call the run goes on from the cell that call leaves: the log is that call's event followed by the rest's log, and the run ends where and how the rest ends. With `Execute`'s own contract this fixes every event of a run. |
| Trace.Conservation | src/lib.rs:53-105 | Over any run, the value held at the start followed by the values handed in equals the values taken out followed by the value held at the end: a one-place FIFO buffer. |
| Trace.NotificationsAlternate | src/lib.rs:53-93 | Over any run, the notifications alternate: `full` after each fill and `empty` after each drain. They start with the one that leaves the initial state and agree with the final state. |
| Trace.PutThenTake | src/lib.rs:53-83 | `put(v)` then `take()` on an empty cell returns `v` and leaves it empty. It notifies `full`, then `empty`. |
| Trace.TakeThenPut | src/lib.rs:53-83 | `take()` then `put` of the taken value restores a full cell. |
| Trace.SwapBack | src/lib.rs:95-105 | `swap(w)` then `swap` of the old value restores the cell, returns the old value and then `w`, and notifies nobody. |
| Trace.ReadsDoNotConsume | src/lib.rs:108-117 | Any number of `read`s of a full cell all return its value, leave it unchanged and notify nobody. |
| Trace.TakeThenIsEmptyLog | src/lib.rs:49-62 | The end of both `put_once` orders: on a full cell, `take` returns the value and notifies `empty`, then `is_empty` is true. |
| Trace.PutOnceLog | src/lib.rs:133-150 | The whole log of `put_once`, producer first: each call's reply and its notification, `full` for the put and `empty` for the take. |
| Trace.PutOnce | src/lib.rs:133-150 | `put_once`, producer first, for any value (the test uses "x"): `is_empty` is true, `take` returns the value put, and `is_empty` is true again. |
| Trace.TakeFirstWaits | src/lib.rs:49-83 | The consumer-first `put_once` before the retry: `is_empty` is true, then `take` blocks on `full`; a lone `put` fills the empty cell and notifies `full`. |
| Trace.PutOnceTakeFirst | src/lib.rs:133-150 | `put_once`, consumer first, for any value: `take` waits on `full`, `put` notifies `full`, and the retried `take` returns the value put and leaves the cell empty. |
| Trace.PutTakeLog | src/lib.rs:53-83 | A `put` into an empty cell followed by a `take`: the whole log, `full` then `empty`, and the cell empty again. |
| Trace.PutTwiceLog | src/lib.rs:152-172 | The whole log of `put_twice` with no waiting: the replies, and notifications alternating `full`, `empty`, `full`, `empty`. |
| Trace.PutTwice | src/lib.rs:152-172 | `put_twice` with no waiting, for any two values (the test uses "x" and "y"): the two takes return the first value and then the second. |
| Trace.PutTwiceBothPutsFirst | src/lib.rs:152-172 | `put_twice` with both puts first: the second put waits on `empty` while the first value is held. |
| Trace.RefusedPutLog | src/lib.rs:85-122 | A refused `try_put` on a full cell followed by `try_read`: false with no notification, then the old value, and the cell unchanged. |
| Trace.TryVariantsLog | src/lib.rs:64-122 | The whole log of the try-variant run: only the successful `try_put` notifies, and the refused one keeps the first value. |
| Trace.TryVariants | src/lib.rs:64-122 | From empty, for any two values: `try_take` is `None`, the first `try_put` is true, the second is false, and `try_read` sees the first value. |
| Trace.SwapThenTryRead | src/lib.rs:95-122 | On a cell holding `u`: `swap(v)` returns `u` and `try_read` then sees `v`. |
| Wakeup.NoLostWakeup | src/lib.rs:53-117 | For a single waiting `take`, `put` or `read`: a critical section that lets it proceed notifies the condition variable it waits on. |
| Wakeup.NotifiedWaiterProceeds | src/lib.rs:53-117 | Any notification on the condition variable a call waits on leaves a cell on which that call proceeds. |
| Wakeup.NothingOnEmptyNotifiesEmpty | src/lib.rs:53-93 | No critical section starting on an empty cell notifies `empty`. |
| Wakeup.SwapMissesFill | src/lib.rs:95-102 | On an empty cell `swap` waits on `empty`. A `put` then fills the cell but notifies `full`, and the swap could now proceed. |
| Wakeup.ReadDoesNotPassOnWakeup | src/lib.rs:73-117 | With a `take` and a `read` both waiting on `full` for an empty cell, the fill notifies `full` once. If the `read` is the one woken, it returns without notifying, and the cell it leaves would let the `take` proceed. |
| Wakeup.SwapIntended | src/lib.rs:95-105 | The corrected swap: waits on `full`, like `take`, exactly where `swap` waits. Otherwise it is exactly `swap`. |
| Wakeup.SwapIntendedDoesNotPassOnWakeup | src/lib.rs:53-117 | With the corrected swap and a `take` both waiting on `full` for an empty cell, a woken corrected swap returns the old value, leaves the cell full and notifies nobody, although the `take` or a `read` could now proceed. |
| Wakeup.SwapIntendedNoLostWakeup | src/lib.rs:95-105 | For a single waiting corrected swap, a critical section lets it proceed if and only if it notifies the condition variable it waits on. |
| Schedule.ProducerStep | src/lib.rs:73-83 | One critical section of the producer thread. It completes exactly when a value is left to put and the cell is empty and unpoisoned; it then stores the next value and leaves the consumer's values alone. Otherwise it changes nothing. |
| Schedule.ConsumerStep | src/lib.rs:53-62 | One critical section of the consumer thread. It completes exactly when takes are left and the cell is full and unpoisoned; it then appends exactly the held value and leaves the cell empty. Otherwise it changes nothing. |
| Schedule.Interleave | src/lib.rs:152-172 | Under any schedule, the values taken only grow by extension and the puts only advance. |
| Schedule.StepsKeepConsistent | src/lib.rs:53-83 | Each thread's critical section keeps the pair consistent: the taken values are the first values put, the producer is at most one ahead, and that value is the one held. |
| Schedule.EveryScheduleKeepsConsistent | src/lib.rs:53-83 | Consistency holds after every schedule. |
| Schedule.ConsumerSeesProducerOrder | src/lib.rs:53-83 | Under every schedule the consumer has the first values the producer put, in order. Once it has all of them, the cell is empty. |
| Schedule.NoDeadlock | src/lib.rs:53-83 | Until both threads are done, one of them can complete a critical section. |
| Schedule.PutOnceCompletes | src/lib.rs:133-150 | The schedules are not vacuous: consumer, producer, consumer completes `put_once`, with "x" taken and the cell empty. |
| Schedule.PutOnceEverySchedule | src/lib.rs:133-150 | `put_once` under every schedule: once the take has completed, it returned "x" and `is_empty` is true. |
| Schedule.PutTwiceEverySchedule | src/lib.rs:152-172 | `put_twice` under every schedule: the first take returns "x" and the second "y". |

## Left out

- Real `Mutex`/`Condvar` behaviour: which waiter `notify_one` wakes, wake order, fairness, spurious wake-ups and liveness of blocked callers. A step records only which condition variable it notifies. `Schedule` treats a woken waiter as re-running its critical section whenever its thread is scheduled, which covers every wake-up order but promises no progress for any one thread.
- The `shuttle` scheduler and its randomized PCT harness (src/lib.rs:5-8, 125-172) are test tooling. Only what the two tests assert is kept.
- The `PoisonError`/`MutexGuard` recovery handle (src/lib.rs:10-12). `LockError` carries no guard.
- How a lock becomes poisoned: a panic while the lock is held. Here that can come from a user `Clone` in `read`/`try_read`, or from a user `Debug` that the derived `Debug` of the cell (src/lib.rs:16) runs while the standard `Mutex` formatter holds the lock. `poisoned` is an input that no operation changes.
- User `Clone` implementations and the `Debug` derive (src/lib.rs:16, 108). A clone is modelled as the value itself.
- Dropping the held value when the cell goes out of scope. Nothing in the model depends on it.
- benches/bench.rs: benchmarks against other channel types, with no logic of their own.
- Wakeup.NoLostWakeup: holds for one waiter per condition variable only. Every notification is a `notify_one`, and a woken `read` returns without notifying again (src/lib.rs:112-113). So with a `take` and a `read` both waiting on `full`, a fill that wakes the `read` leaves the `take` asleep on a full cell until some later notification (`Wakeup.ReadDoesNotPassOnWakeup`). A woken corrected swap does the same: it leaves the cell full and notifies nobody, so a `take` or `read` waiting behind it on `full` also sleeps on a full cell (`Wakeup.SwapIntendedDoesNotPassOnWakeup`). The model tracks which variable is notified, not which waiter wakes.
- Wakeup.SwapIntendedNoLostWakeup: holds for one waiting swap only, for the same reason. Neither a woken `read` nor a woken corrected swap passes the `full` notification on to a swap waiting behind it.

## Findings

| source | as written | input that shows it | evidently intended | confidence | as-written member | corrected member |
|---|---|---|---|---|---|---|
| src/lib.rs:101 | `swap` on an empty cell waits on `self.empty`, but the only critical sections that fill the cell (`put`, `try_put`) notify `self.full` | Empty cell. Thread A calls `swap(v)` and waits on `empty`. Thread B calls `put(w)`: the cell is now `Full(w)` and `full` is notified, so A keeps sleeping on a full cell. A later drain's `empty` notification may then go to A, which finds the cell empty again, instead of to a waiting `put` | wait on `self.full`, as `take` does: a swap on an empty cell waits for a value | high; not executed | Wakeup.SwapMissesFill | Wakeup.SwapIntended |

`Trace.Step` keeps `swap` as written, so the traces describe the code. The corrected and
as-written swaps agree on every outcome except which condition variable they wait on
(`Wakeup.SwapIntended`). So every trace result that involves no waiting (`Conservation`,
`NotificationsAlternate`, the round trips and the scenarios) holds for both.
`Wakeup.SwapIntendedNoLostWakeup` is what the correction adds.

=== FILE: mvar.dfy ===
/** A one-slot synchronising cell in the style of Haskell's MVar.

    The cell is a mutex guarding an optional value plus two condition variables,
    `full` and `empty`. Every public operation runs as one critical section over
    that optional value. This module models each critical section as a pure step:
    given the cell before the section, it says what the caller gets back, what the
    slot holds afterwards and which condition variable (if any) was notified, or
    that the caller waits on a condition variable with the slot untouched, or that
    the lock was poisoned.
 */
module Mvar {

  datatype Option<+T> = None | Some(value: T)

  /** The `Option<T>` behind the mutex: Empty is `None`, Full(v) is `Some(v)`. */
  datatype Slot<+T> = Empty | Full(value: T)

  /** The two condition variables: `full` wakes consumers, `empty` wakes producers. */
  datatype Signal = FullSignal | EmptySignal

  /** The guarded slot together with the mutex's poison flag. */
  datatype Cell<+T> = Cell(slot: Slot<T>, poisoned: bool)

  /** What one critical section does.
      - Done: the operation returns `result`, leaves `slot` behind and
        `notify_one`s the condition variable `notified`, if any.
      - Wait: the operation releases the lock and waits on `signal`; the slot is
        unchanged and the operation runs its critical section again when woken.
      - LockError: the lock is poisoned; the error is returned and nothing changes. */
  datatype Outcome<+T, +R> =
    | Done(result: R, slot: Slot<T>, notified: Option<Signal>)
    | Wait(signal: Signal)
    | LockError

  /** The condition variable whose waiters a change of the slot from `before`
      to `after` concerns: `full` when the cell fills, `empty` when it drains,
      none when it stays in the same state. */
  function Transition<T>(before: Slot<T>, after: Slot<T>): Option<Signal> {
    if before.Empty? && after.Full? then Some(FullSignal)
    else if before.Full? && after.Empty? then Some(EmptySignal)
    else None
  }

  /** The cell once a critical section with outcome `o` has run on `c`. */
  function After<T, R>(c: Cell<T>, o: Outcome<T, R>): (c': Cell<T>)
    ensures c'.poisoned == c.poisoned
    ensures o.Done? ==> c' == Cell(o.slot, c.poisoned)
    ensures !o.Done? ==> c' == c
  {
    match o
    case Done(_, slot, _) => c.(slot := slot)
    case _ => c
  }

  // ---------------------------------------------------------------------------
  // Construction

  /** `Mvar::empty`: a fresh mutex holding `None`. */
  function EmptyCell<T>(): Cell<T> {
    Cell(Empty, false)
  }

  /** `Mvar::new(value)`: a fresh mutex holding `Some(value)`. */
  function NewCell<T>(value: T): Cell<T> {
    Cell(Full(value), false)
  }

  /** `Default::default` delegates to `Mvar::empty`. */
  function DefaultCell<T>(): Cell<T> {
    EmptyCell()
  }

  // ---------------------------------------------------------------------------
  // Queries and operations, one critical section each

  /** `is_empty`: reports whether the slot is `None`, changing nothing. */
  function IsEmpty<T>(c: Cell<T>): (o: Outcome<T, bool>)
    ensures o.LockError? <==> c.poisoned
    ensures !o.Wait?
    ensures o.Done? ==> o.slot == c.slot && o.notified == None
    ensures o.Done? ==> (o.result <==> TryRead(c).result == None)
  {
    if c.poisoned then LockError else Done(c.slot.Empty?, c.slot, None)
  }

  /** `take`: removes the value of a full cell and wakes one producer; on an
      empty cell waits until some fill notifies `full`. */
  function Take<T>(c: Cell<T>): (o: Outcome<T, T>)
    ensures o.LockError? <==> c.poisoned
    ensures o.Wait? <==> !c.poisoned && c.slot.Empty?
    ensures o.Wait? ==> o.signal == FullSignal
    ensures o.Done? ==> c.slot == Full(o.result) && o.slot == Empty
    ensures o.Done? ==> o.notified == Transition(c.slot, o.slot) == Some(EmptySignal)
  {
    if c.poisoned then LockError
    else match c.slot
      case Full(v) => Done(v, Empty, Some(EmptySignal))
      case Empty => Wait(FullSignal)
  }

  /** `try_take`: `take` that answers `None` where `take` would wait. */
  function TryTake<T>(c: Cell<T>): (o: Outcome<T, Option<T>>)
    ensures !o.Wait?
    ensures o.LockError? <==> Take(c).LockError?
    ensures Take(c).Wait? <==> o == Done(None, c.slot, None)
    ensures Take(c).Done? ==> o == Done(Some(Take(c).result), Take(c).slot, Take(c).notified)
  {
    if c.poisoned then LockError
    else match c.slot
      case Full(v) => Done(Some(v), Empty, Some(EmptySignal))
      case Empty => Done(None, Empty, None)
  }

  /** `put(value)`: fills an empty cell and wakes one consumer; on a full cell
      waits until some drain notifies `empty`. */
  function Put<T>(c: Cell<T>, value: T): (o: Outcome<T, ()>)
    ensures o.LockError? <==> c.poisoned
    ensures o.Wait? <==> !c.poisoned && c.slot.Full?
    ensures o.Wait? ==> o.signal == EmptySignal
    ensures o.Done? ==> c.slot == Empty && o.slot == Full(value)
    ensures o.Done? ==> o.notified == Transition(c.slot, o.slot) == Some(FullSignal)
  {
    if c.poisoned then LockError
    else match c.slot
      case Empty => Done((), Full(value), Some(FullSignal))
      case Full(_) => Wait(EmptySignal)
  }

  /** `try_put(value)`: `put` that answers false, keeping the old value and
      dropping `value`, where `put` would wait. */
  function TryPut<T>(c: Cell<T>, value: T): (o: Outcome<T, bool>)
    ensures !o.Wait?
    ensures o.LockError? <==> Put(c, value).LockError?
    ensures Put(c, value).Wait? <==> o == Done(false, c.slot, None)
    ensures Put(c, value).Done? ==> o == Done(true, Put(c, value).slot, Put(c, value).notified)
  {
    if c.poisoned then LockError
    else match c.slot
      case Full(_) => Done(false, c.slot, None)
      case Empty => Done(true, Full(value), Some(FullSignal))
  }

  /** `swap(value)`: exchanges the value of a full cell within one critical
      section. The `None` left by `take()` is overwritten before the lock is
      released, so the cell is never seen empty and nothing is notified. On an
      empty cell the code waits on `empty`, as written. */
  function Swap<T>(c: Cell<T>, value: T): (o: Outcome<T, T>)
    ensures o.LockError? <==> c.poisoned
    ensures o.Wait? <==> !c.poisoned && c.slot.Empty?
    ensures o.Wait? ==> o.signal == EmptySignal
    ensures o.Done? ==> c.slot == Full(o.result) && o.slot == Full(value)
    ensures o.Done? ==> o.notified == Transition(c.slot, o.slot) == None
    // the same value and slot as a `take` followed at once by a `put(value)`
    ensures o.Done? ==> Take(c).Done? && o.result == Take(c).result
    ensures o.Done? ==> Put(After(c, Take(c)), value).Done? && o.slot == Put(After(c, Take(c)), value).slot
  {
    if c.poisoned then LockError
    else match c.slot
      case Full(held) => Done(held, Full(value), None)
      case Empty => Wait(EmptySignal)
  }

  /** `read`: a copy of the value of a full cell, leaving it full; on an empty
      cell waits on `full`. */
  function Read<T>(c: Cell<T>): (o: Outcome<T, T>)
    ensures o.LockError? <==> c.poisoned
    ensures o.Wait? <==> !c.poisoned && c.slot.Empty?
    ensures o.Wait? ==> o.signal == FullSignal
    ensures o.Done? ==> c.slot == Full(o.result) && o.slot == c.slot && o.notified == None
    // the value `take` would return, without `take`'s effect on the slot
    ensures o.Done? ==> Take(c).Done? && o.result == Take(c).result
  {
    if c.poisoned then LockError
    else match c.slot
      case Full(v) => Done(v, c.slot, None)
      case Empty => Wait(FullSignal)
  }

  /** `try_read`: `read` that answers `None` where `read` would wait. */
  function TryRead<T>(c: Cell<T>): (o: Outcome<T, Option<T>>)
    ensures !o.Wait?
    ensures o.LockError? <==> Read(c).LockError?
    ensures Read(c).Wait? <==> o == Done(None, c.slot, None)
    ensures Read(c).Done? ==> o == Done(Some(Read(c).result), c.slot, None)
  {
    if c.poisoned then LockError
    else match c.slot
      case Full(v) => Done(Some(v), c.slot, None)
      case Empty => Done(None, c.slot, None)
  }

  /** What each constructor yields, as the queries observe it. */
  lemma Constructors<T>(value: T)
    ensures DefaultCell<T>() == EmptyCell<T>()
    ensures IsEmpty(EmptyCell<T>()) == Done(true, Empty, None)
    ensures TryRead(EmptyCell<T>()) == Done(None, Empty, None)
    ensures IsEmpty(NewCell(value)) == Done(false, Full(value), None)
    ensures TryRead(NewCell(value)) == Done(Some(value), Full(value), None)
  {
  }

  /** A poisoned lock turns every operation into the error, with nothing changed. */
  lemma PoisonedCellRefusesAll<T>(c: Cell<T>, value: T)
    requires c.poisoned
    ensures IsEmpty(c).LockError? && Take(c).LockError? && TryTake(c).LockError?
    ensures Put(c, value).LockError? && TryPut(c, value).LockError? && Swap(c, value).LockError?
    ensures Read(c).LockError? && TryRead(c).LockError?
  {
  }
}

=== FILE: schedule.dfy ===
/** The two tests as two threads sharing one cell.

    A producer thread puts the values `vs` in order and a consumer thread takes
    `|vs|` times, as the `put_once` (one value) and `put_twice` (two values)
    tests do. A schedule says, critical section by critical section, which
    thread holds the lock next. A call whose critical section waits changes
    nothing and is run again whenever its thread is scheduled again, so every
    wake-up order, spurious or not, is among the schedules. Over every schedule
    the consumer receives a prefix of `vs`, in order, and the pair never
    deadlocks before both are done.
 */
module Schedule {
  import opened Mvar

  /** The cell, how many values the producer has put, and what the consumer
      has taken so far. */
  datatype World<T> = World(cell: Cell<T>, produced: nat, consumed: seq<T>)

  function Start<T>(): World<T> {
    World(EmptyCell(), 0, [])
  }

  /** One critical section of the producer: its next `put`, if any is left. */
  function ProducerStep<T>(vs: seq<T>, w: World<T>): (w': World<T>)
    ensures w'.consumed == w.consumed && w'.cell.poisoned == w.cell.poisoned
    ensures w'.produced == w.produced || (w.produced < |vs| && w'.produced == w.produced + 1)
    // a put that waits, or none left to do, changes nothing
    ensures w'.produced == w.produced ==> w' == w
    // a put that completes found the cell empty and stored the next value
    ensures w'.produced == w.produced + 1 ==>
      w.cell.slot == Empty && w'.cell == w.cell.(slot := Full(vs[w.produced]))
    // and a put with a value left on an empty, unpoisoned cell always completes
    ensures w'.produced == w.produced + 1 <==> w.produced < |vs| && !w.cell.poisoned && w.cell.slot.Empty?
  {
    if w.produced < |vs| then
      var o := Put(w.cell, vs[w.produced]);
      if o.Done? then w.(cell := After(w.cell, o), produced := w.produced + 1) else w
    else w
  }

  /** One critical section of the consumer: its next `take`, if any is left. */
  function ConsumerStep<T>(vs: seq<T>, w: World<T>): (w': World<T>)
    ensures w'.produced == w.produced && w'.cell.poisoned == w.cell.poisoned
    ensures w'.consumed == w.consumed || (|w.consumed| < |vs| && |w'.consumed| == |w.consumed| + 1)
    ensures w'.consumed[..|w.consumed|] == w.consumed
    // a take that waits, or none left to do, changes nothing
    ensures w'.consumed == w.consumed ==> w' == w
    // a take that completes appended the value the cell held and drained it
    ensures |w'.consumed| == |w.consumed| + 1 ==>
      w.cell.slot == Full(w'.consumed[|w.consumed|]) && w'.cell == w.cell.(slot := Empty)
    // and a take with takes left on a full, unpoisoned cell always completes
    ensures |w'.consumed| == |w.consumed| + 1 <==> |w.consumed| < |vs| && !w.cell.poisoned && w.cell.slot.Full?
  {
    if |w.consumed| < |vs| then
      var o := Take(w.cell);
      if o.Done? then w.(cell := After(w.cell, o), consumed := w.consumed + [o.result]) else w
    else w
  }

  /** Runs a schedule: `true` gives the lock to the producer, `false` to the consumer. */
  function Interleave<T>(vs: seq<T>, w: World<T>, schedule: seq<bool>): (w': World<T>)
    ensures w'.cell.poisoned == w.cell.poisoned
    ensures w.produced <= w'.produced
    ensures |w.consumed| <= |w'.consumed| && w'.consumed[..|w.consumed|] == w.consumed
    decreases |schedule|
  {
    if schedule == [] then w
    else
      var next := if schedule[0] then ProducerStep(vs, w) else ConsumerStep(vs, w);
      Interleave(vs, next, schedule[1..])
  }

  /** What the two threads may have done between them: the consumer has taken
      the first values of `vs` in order, the producer is at most one put ahead,
      and that one value, if any, is what the cell holds. */
  ghost predicate Consistent<T>(vs: seq<T>, w: World<T>) {
    && !w.cell.poisoned
    && |w.consumed| <= w.produced <= |vs|
    && w.produced <= |w.consumed| + 1
    && w.consumed == vs[..|w.consumed|]
    && w.cell.slot == (if w.produced == |w.consumed| then Empty else Full(vs[|w.consumed|]))
  }

  /** Each thread's critical section keeps the two threads consistent. */
  lemma StepsKeepConsistent<T>(vs: seq<T>, w: World<T>)
    requires Consistent(vs, w)
    ensures Consistent(vs, ProducerStep(vs, w))
    ensures Consistent(vs, ConsumerStep(vs, w))
  {
  }

  /** So does every schedule of them. */
  lemma {:induction false} EveryScheduleKeepsConsistent<T>(vs: seq<T>, w: World<T>, schedule: seq<bool>)
    requires Consistent(vs, w)
    ensures Consistent(vs, Interleave(vs, w, schedule))
    decreases |schedule|
  {
    if schedule != [] {
      StepsKeepConsistent(vs, w);
      var next := if schedule[0] then ProducerStep(vs, w) else ConsumerStep(vs, w);
      EveryScheduleKeepsConsistent(vs, next, schedule[1..]);
    }
  }

  /** Over every schedule the consumer has received the first values the
      producer put, in order; once it has received all of them, the producer is
      done and the cell is empty. */
  lemma ConsumerSeesProducerOrder<T>(vs: seq<T>, schedule: seq<bool>)
    ensures var w := Interleave(vs, Start(), schedule);
      |w.consumed| <= |vs| && w.consumed == vs[..|w.consumed|]
      && (|w.consumed| == |vs| ==> w.consumed == vs && w.produced == |vs| && IsEmpty(w.cell) == Done(true, Empty, None))
  {
    EveryScheduleKeepsConsistent(vs, Start(), schedule);
  }

  /** No deadlock: until both threads are done, one of them can complete a
      critical section. */
  lemma NoDeadlock<T>(vs: seq<T>, w: World<T>)
    requires Consistent(vs, w)
    requires w.produced < |vs| || |w.consumed| < |vs|
    ensures ProducerStep(vs, w) != w || ConsumerStep(vs, w) != w
  {
  }

  /** The schedules are not vacuous: the consumer first, then the producer,
      then the consumer again completes `put_once`. */
  lemma PutOnceCompletes()
    ensures Interleave(["x"], Start(), [false, true, false]) == World(EmptyCell(), 1, ["x"])
  {
    var w0: World<string> := Start();
    var w1 := ConsumerStep(["x"], w0);
    assert w1 == w0;
    var w2 := ProducerStep(["x"], w1);
    assert w2 == World(NewCell("x"), 1, []);
    var w3 := ConsumerStep(["x"], w2);
    assert w3 == World(EmptyCell(), 1, ["x"]);
    var s: seq<bool> := [false, true, false];
    assert s[1..] == [true, false] && s[1..][1..] == [false] && s[1..][1..][1..] == [];
  }

  /** The assertions of `put_once`: however the threads interleave, the take
      returns "x" and the cell is empty afterwards. */
  lemma PutOnceEverySchedule(schedule: seq<bool>)
    ensures var w := Interleave(["x"], Start(), schedule);
      |w.consumed| == 1 ==> w.consumed == ["x"] && IsEmpty(w.cell) == Done(true, Empty, None)
  {
    ConsumerSeesProducerOrder(["x"], schedule);
  }

  /** The assertions of `put_twice`: however the threads interleave, the first
      take returns "x" and the second "y". */
  lemma PutTwiceEverySchedule(schedule: seq<bool>)
    ensures var w := Interleave(["x", "y"], Start(), schedule);
      (|w.consumed| >= 1 ==> w.consumed[0] == "x") && (|w.consumed| == 2 ==> w.consumed == ["x", "y"])
  {
    ConsumerSeesProducerOrder(["x", "y"], schedule);
  }
}

=== FILE: trace.dfy ===
/** Sequences of operations on one cell, issued by a single thread.

    `Step` dispatches any public operation to its critical section in `Mvar`;
    `Execute` runs a list of operations in order, stopping at the first one that
    would wait (nobody else can wake it) or that meets a poisoned lock. Over such
    runs the cell behaves as a one-place FIFO buffer, and its notifications
    alternate between `full` and `empty` with its fills and drains.
 */
module Trace {
  import opened Mvar

  /** A call to one of the cell's public operations. */
  datatype Op<+T> =
    | IsEmptyOp
    | TakeOp
    | TryTakeOp
    | PutOp(value: T)
    | TryPutOp(value: T)
    | SwapOp(value: T)
    | ReadOp
    | TryReadOp

  /** The `Ok` value an operation returns, whatever its type. */
  datatype Reply<+T> = Value(value: T) | Maybe(option: Option<T>) | Flag(flag: bool) | Unit

  /** The operations that can wait on a condition variable. */
  predicate Blocking<T>(op: Op<T>) {
    op.TakeOp? || op.PutOp? || op.SwapOp? || op.ReadOp?
  }

  /** The operations that never write the slot. */
  predicate Observing<T>(op: Op<T>) {
    op.IsEmptyOp? || op.ReadOp? || op.TryReadOp?
  }

  /** The values a slot holds, in order: none or one. */
  function Contents<T>(s: Slot<T>): (xs: seq<T>)
    ensures |xs| <= 1
    ensures s.Full? ==> xs == [s.value]
    ensures s.Empty? <==> xs == []
  {
    match s
    case Empty => []
    case Full(v) => [v]
  }

  /** The value an operation hands to the cell, judged from the call and its reply. */
  function Stored<T>(op: Op<T>, reply: Reply<T>): seq<T> {
    match op
    case PutOp(v) => [v]
    case TryPutOp(v) => if reply.Flag? && reply.flag then [v] else []
    case SwapOp(v) => [v]
    case _ => []
  }

  /** The value an operation takes out of the cell, judged from the call and its reply. */
  function Removed<T>(op: Op<T>, reply: Reply<T>): seq<T> {
    match reply
    case Value(v) => if op.TakeOp? || op.SwapOp? then [v] else []
    case Maybe(Some(v)) => if op.TryTakeOp? then [v] else []
    case _ => []
  }

  // The same outcome, with the reply wrapped as a `Reply`.

  function LiftValue<T>(o: Outcome<T, T>): Outcome<T, Reply<T>> {
    match o
    case Done(r, slot, n) => Done(Value(r), slot, n)
    case Wait(s) => Wait(s)
    case LockError => LockError
  }

  function LiftMaybe<T>(o: Outcome<T, Option<T>>): Outcome<T, Reply<T>> {
    match o
    case Done(r, slot, n) => Done(Maybe(r), slot, n)
    case Wait(s) => Wait(s)
    case LockError => LockError
  }

  function LiftFlag<T>(o: Outcome<T, bool>): Outcome<T, Reply<T>> {
    match o
    case Done(r, slot, n) => Done(Flag(r), slot, n)
    case Wait(s) => Wait(s)
    case LockError => LockError
  }

  function LiftUnit<T>(o: Outcome<T, ()>): Outcome<T, Reply<T>> {
    match o
    case Done(_, slot, n) => Done(Unit, slot, n)
    case Wait(s) => Wait(s)
    case LockError => LockError
  }

  /** One critical section of any operation. */
  function Step<T>(op: Op<T>, c: Cell<T>): (o: Outcome<T, Reply<T>>)
    ensures o.LockError? <==> c.poisoned
    // only the blocking operations ever wait
    ensures o.Wait? ==> Blocking(op)
    // a notification is sent exactly when the slot changes state, on the matching signal
    ensures o.Done? ==> o.notified == Transition(c.slot, o.slot)
    // a swap never leaves the cell empty
    ensures o.Done? && op.SwapOp? ==> o.slot.Full?
    ensures o.Done? && Observing(op) ==> o.slot == c.slot
    // nothing is lost or invented: what was held and handed in is what is handed out and held
    ensures o.Done? ==> Contents(c.slot) + Stored(op, o.result) == Removed(op, o.result) + Contents(o.slot)
  {
    match op
    case IsEmptyOp => LiftFlag(IsEmpty(c))
    case TakeOp => LiftValue(Take(c))
    case TryTakeOp => LiftMaybe(TryTake(c))
    case PutOp(v) => LiftUnit(Put(c, v))
    case TryPutOp(v) => LiftFlag(TryPut(c, v))
    case SwapOp(v) => LiftValue(Swap(c, v))
    case ReadOp => LiftValue(Read(c))
    case TryReadOp => LiftMaybe(TryRead(c))
  }

  /** One completed call: the operation, its reply and the signal it notified. */
  datatype Event<+T> = Event(op: Op<T>, reply: Reply<T>, notified: Option<Signal>)

  /** Why a run ended. */
  datatype Stop = Finished | Blocked(signal: Signal) | Poisoned

  datatype Run<+T> = Run(log: seq<Event<T>>, final: Cell<T>, stop: Stop)

  /** Runs `ops` in order from `c` on one thread. */
  function Execute<T>(ops: seq<Op<T>>, c: Cell<T>): (r: Run<T>)
    ensures |r.log| <= |ops|
    ensures r.stop.Finished? <==> |r.log| == |ops|
    ensures forall i :: 0 <= i < |r.log| ==> r.log[i].op == ops[i]
    ensures r.final.poisoned == c.poisoned
    // a poisoned cell refuses the first call and stays as it was
    ensures r.stop.Poisoned? <==> c.poisoned && |ops| > 0
    ensures c.poisoned ==> r.log == [] && r.final == c
    // a run that blocks stops at the first call whose critical section waits
    ensures r.stop.Blocked? ==> Step(ops[|r.log|], r.final) == Wait(r.stop.signal)
    ensures r.stop.Blocked? ==> Blocking(ops[|r.log|])
    // a completed first call is logged with its critical section's reply and
    // notification; a first call that waits or meets the poisoned lock ends the
    // run with nothing logged and the cell untouched (`ExecuteFirst` says how the
    // run goes on after a completed call)
    ensures ops != [] && Step(ops[0], c).Done? ==>
      |r.log| >= 1 && r.log[0] == Event(ops[0], Step(ops[0], c).result, Step(ops[0], c).notified)
    ensures ops != [] && !Step(ops[0], c).Done? ==> r.log == [] && r.final == c
    decreases |ops|
  {
    if ops == [] then Run([], c, Finished)
    else
      var o := Step(ops[0], c);
      match o
      case LockError => Run([], c, Poisoned)
      case Wait(s) => Run([], c, Blocked(s))
      case Done(reply, _, n) =>
        var rest := Execute(ops[1..], After(c, o));
        rest.(log := [Event(ops[0], reply, n)] + rest.log)
  }

  function Replies<T>(log: seq<Event<T>>): (rs: seq<Reply<T>>)
    ensures |rs| == |log|
    ensures forall i :: 0 <= i < |log| ==> rs[i] == log[i].reply
  {
    if log == [] then [] else [log[0].reply] + Replies(log[1..])
  }

  /** Every value handed to the cell over a log, in order. */
  function StoredAll<T>(log: seq<Event<T>>): seq<T> {
    if log == [] then [] else Stored(log[0].op, log[0].reply) + StoredAll(log[1..])
  }

  /** Every value taken out of the cell over a log, in order. */
  function RemovedAll<T>(log: seq<Event<T>>): seq<T> {
    if log == [] then [] else Removed(log[0].op, log[0].reply) + RemovedAll(log[1..])
  }

  /** The signals notified over a log, in order. */
  function Signals<T>(log: seq<Event<T>>): seq<Signal> {
    if log == [] then []
    else (match log[0].notified case Some(s) => [s] case None => []) + Signals(log[1..])
  }

  /** `sigs` is what a cell that starts full (`full`) or empty and ends full
      (`fullAtEnd`) or empty may notify: `full` on each fill and `empty` on each
      drain, so the two strictly alternate. */
  ghost predicate Alternates(sigs: seq<Signal>, full: bool, fullAtEnd: bool)
    decreases |sigs|
  {
    if sigs == [] then full == fullAtEnd
    else sigs[0] == (if full then EmptySignal else FullSignal) && Alternates(sigs[1..], !full, fullAtEnd)
  }

  /** After a completed first call the run goes on from the cell that call
      leaves: its log is the first event followed by the log of the rest, and
      it ends where and how the rest ends. */
  lemma ExecuteFirst<T>(ops: seq<Op<T>>, c: Cell<T>)
    requires ops != [] && Step(ops[0], c).Done?
    ensures var o := Step(ops[0], c); var rest := Execute(ops[1..], After(c, o));
      Execute(ops, c) == Run([Event(ops[0], o.result, o.notified)] + rest.log, rest.final, rest.stop)
  {
  }

  /** What the log summaries make of one more call at the front. */
  lemma LogCons<T>(e: Event<T>, log: seq<Event<T>>)
    ensures Replies([e] + log) == [e.reply] + Replies(log)
    ensures StoredAll([e] + log) == Stored(e.op, e.reply) + StoredAll(log)
    ensures RemovedAll([e] + log) == Removed(e.op, e.reply) + RemovedAll(log)
    ensures Signals([e] + log) == (match e.notified case Some(s) => [s] case None => []) + Signals(log)
  {
  }

  /** The cell is a one-place FIFO buffer: the value it held at the start,
      followed by everything handed to it, is exactly everything taken out of
      it, followed by what it holds at the end. */
  lemma {:induction false} Conservation<T>(ops: seq<Op<T>>, c: Cell<T>)
    ensures var r := Execute(ops, c);
      Contents(c.slot) + StoredAll(r.log) == RemovedAll(r.log) + Contents(r.final.slot)
    decreases |ops|
  {
    if ops != [] {
      var o := Step(ops[0], c);
      if o.Done? {
        var c' := After(c, o);
        var rest := Execute(ops[1..], c');
        Conservation(ops[1..], c');
        var e := Event(ops[0], o.result, o.notified);
        LogCons(e, rest.log);
        var held, stored, removed := Contents(c.slot), Stored(e.op, e.reply), Removed(e.op, e.reply);
        var s', r', held' := StoredAll(rest.log), RemovedAll(rest.log), Contents(rest.final.slot);
        assert held + stored == removed + Contents(o.slot);
        assert Contents(o.slot) + s' == r' + held';
        SeqShuffle(held, stored, removed, Contents(o.slot), s', r', held');
      }
    }
  }

  /** Splicing two sequence equations through their shared middle part. */
  lemma SeqShuffle<T>(a: seq<T>, b: seq<T>, c: seq<T>, m: seq<T>, d: seq<T>, e: seq<T>, f: seq<T>)
    requires a + b == c + m
    requires m + d == e + f
    ensures a + (b + d) == (c + e) + f
  {
    calc {
      a + (b + d);
      (a + b) + d;
      (c + m) + d;
      c + (m + d);
      c + (e + f);
      (c + e) + f;
    }
  }

  /** Fills notify `full`, drains notify `empty`, and nothing else notifies, so
      along any run the notifications alternate, starting with the one that
      undoes the initial state and ending consistently with the final state. */
  lemma {:induction false} NotificationsAlternate<T>(ops: seq<Op<T>>, c: Cell<T>)
    ensures var r := Execute(ops, c);
      Alternates(Signals(r.log), c.slot.Full?, r.final.slot.Full?)
    decreases |ops|
  {
    if ops != [] {
      var o := Step(ops[0], c);
      if o.Done? {
        var c' := After(c, o);
        var rest := Execute(ops[1..], c');
        NotificationsAlternate(ops[1..], c');
        var log := [Event(ops[0], o.result, o.notified)] + rest.log;
        LogCons(log[0], rest.log);
        match o.notified
        case None =>
          assert c.slot.Full? == o.slot.Full?;
          assert Signals(log) == Signals(rest.log);
        case Some(s) =>
          assert c.slot.Full? != o.slot.Full?;
          assert Signals(log) == [s] + Signals(rest.log);
          assert Signals(log)[1..] == Signals(rest.log);
      }
    }
  }

  // ---------------------------------------------------------------------------
  // Round trips

  /** `put(v)` then `take()` hands `v` back and leaves the cell empty again,
      having woken one consumer and then one producer. */
  lemma PutThenTake<T>(c: Cell<T>, v: T)
    requires c.slot.Empty? && !c.poisoned
    ensures var r := Execute([PutOp(v), TakeOp], c);
      r.stop == Finished && Replies(r.log) == [Unit, Value(v)] && r.final == c
      && Signals(r.log) == [FullSignal, EmptySignal]
  {
    var full := Cell(Full(v), false);
    var e1, e2 := Event(PutOp(v), Unit, Some(FullSignal)), Event(TakeOp, Value(v), Some(EmptySignal));
    assert Step(PutOp(v), c) == Done(Unit, Full(v), Some(FullSignal));
    assert Step(TakeOp, full) == Done(Value(v), Empty, Some(EmptySignal));
    Prepend(TakeOp, [], full, e2, c);
    Prepend(PutOp(v), [TakeOp], c, e1, full);
    assert [e1] + ([e2] + []) == [e1, e2];
    LogCons(e1, [e2]);
    LogCons(e2, []);
  }

  /** `take()` then `put(v)` of the value taken restores a full cell. */
  lemma TakeThenPut<T>(c: Cell<T>)
    requires c.slot.Full? && !c.poisoned
    ensures var r := Execute([TakeOp, PutOp(c.slot.value)], c);
      r.stop == Finished && Replies(r.log) == [Value(c.slot.value), Unit] && r.final == c
      && Signals(r.log) == [EmptySignal, FullSignal]
  {
    var v := c.slot.value;
    var empty := Cell(Empty, false);
    var e1, e2 := Event(TakeOp, Value(v), Some(EmptySignal)), Event(PutOp(v), Unit, Some(FullSignal));
    assert Step(TakeOp, c) == Done(Value(v), Empty, Some(EmptySignal));
    assert Step(PutOp(v), empty) == Done(Unit, Full(v), Some(FullSignal));
    Prepend(PutOp(v), [], empty, e2, c);
    Prepend(TakeOp, [PutOp(v)], c, e1, empty);
    assert [e1] + ([e2] + []) == [e1, e2];
    LogCons(e1, [e2]);
    LogCons(e2, []);
  }

  /** Swapping a value in and swapping the old one back restores the cell,
      notifying nobody. */
  lemma SwapBack<T>(c: Cell<T>, w: T)
    requires c.slot.Full? && !c.poisoned
    ensures var r := Execute([SwapOp(w), SwapOp(c.slot.value)], c);
      r.stop == Finished && Replies(r.log) == [Value(c.slot.value), Value(w)] && r.final == c
      && Signals(r.log) == []
  {
    var v := c.slot.value;
    var swapped := Cell(Full(w), false);
    var e1, e2 := Event(SwapOp(w), Value(v), None), Event(SwapOp(v), Value(w), None);
    assert Step(SwapOp(w), c) == Done(Value(v), Full(w), None);
    assert Step(SwapOp(v), swapped) == Done(Value(w), Full(v), None);
    Prepend(SwapOp(v), [], swapped, e2, c);
    Prepend(SwapOp(w), [SwapOp(v)], c, e1, swapped);
    assert [e1] + ([e2] + []) == [e1, e2];
    LogCons(e1, [e2]);
    LogCons(e2, []);
  }

  /** `read` does not consume: any number of reads of a full cell return its
      value and leave the cell as it was, notifying nobody. */
  lemma {:induction false} ReadsDoNotConsume<T>(ops: seq<Op<T>>, c: Cell<T>)
    requires forall i :: 0 <= i < |ops| ==> ops[i] == ReadOp
    requires c.slot.Full? && !c.poisoned
    ensures var r := Execute(ops, c);
      r.stop == Finished && r.final == c && Signals(r.log) == []
      && forall i :: 0 <= i < |r.log| ==> r.log[i].reply == Value(c.slot.value)
    decreases |ops|
  {
    if ops != [] {
      ReadsDoNotConsume(ops[1..], c);
      var rest := Execute(ops[1..], c);
      var e := Event(ReadOp, Value(c.slot.value), None);
      assert ops[0] == ReadOp;
      assert Step(ReadOp, c) == Done(Value(c.slot.value), c.slot, None);
      assert After(c, Step(ops[0], c)) == c;
      var log := [e] + rest.log;
      ExecuteFirst(ops, c);
      LogCons(e, rest.log);
      assert forall i :: 1 <= i < |log| ==> log[i] == rest.log[i - 1];
    }
  }

  // ---------------------------------------------------------------------------
  // The `put_once` and `put_twice` tests, as single-thread schedules

  /** A run that begins with a completed call is that call's event `e` followed
      by the run of the remaining calls from the cell `c'` it leaves. */
  lemma Prepend<T>(op: Op<T>, ops: seq<Op<T>>, c: Cell<T>, e: Event<T>, c': Cell<T>)
    requires Step(op, c).Done?
    requires e == Event(op, Step(op, c).result, Step(op, c).notified) && c' == After(c, Step(op, c))
    ensures var rest := Execute(ops, c');
      Execute([op] + ops, c) == Run([e] + rest.log, rest.final, rest.stop)
  {
    assert ([op] + ops)[1..] == ops;
  }

  /** The critical sections the test scenarios run, on cells holding nothing,
      `x` or `y`. */
  lemma TestSteps<T>(x: T, y: T)
    ensures Step(IsEmptyOp, EmptyCell<T>()) == Done(Flag(true), Empty, None)
    ensures Step(TakeOp, EmptyCell<T>()) == Wait(FullSignal)
    ensures Step(PutOp(x), EmptyCell<T>()) == Done(Unit, Full(x), Some(FullSignal))
    ensures Step(PutOp(y), NewCell(x)) == Wait(EmptySignal)
    ensures Step(TakeOp, NewCell(x)) == Done(Value(x), Empty, Some(EmptySignal))
  {
  }

  /** A `take` of a full cell followed by `is_empty`: the end of both
      `put_once` orders. */
  lemma TakeThenIsEmptyLog<T>(x: T)
    ensures Execute([TakeOp, IsEmptyOp], NewCell(x))
         == Run([Event(TakeOp, Value(x), Some(EmptySignal)), Event(IsEmptyOp, Flag(true), None)], EmptyCell(), Finished)
  {
    var empty, full := EmptyCell<T>(), NewCell(x);
    var e2, e3 := Event(TakeOp, Value(x), Some(EmptySignal)), Event(IsEmptyOp, Flag(true), None);
    TestSteps(x, x);
    Prepend(IsEmptyOp, [], empty, e3, empty);
    Prepend(TakeOp, [IsEmptyOp], full, e2, empty);
    assert [e2] + ([e3] + []) == [e2, e3];
  }

  /** The whole log of `PutOnce`. */
  lemma PutOnceLog<T>(x: T)
    ensures Execute([IsEmptyOp, PutOp(x), TakeOp, IsEmptyOp], EmptyCell<T>())
         == Run([Event(IsEmptyOp, Flag(true), None), Event(PutOp(x), Unit, Some(FullSignal)),
                 Event(TakeOp, Value(x), Some(EmptySignal)), Event(IsEmptyOp, Flag(true), None)],
                EmptyCell(), Finished)
  {
    var empty, full := EmptyCell<T>(), NewCell(x);
    var e0, e1 := Event(IsEmptyOp, Flag(true), None), Event(PutOp(x), Unit, Some(FullSignal));
    var e2, e3 := Event(TakeOp, Value(x), Some(EmptySignal)), Event(IsEmptyOp, Flag(true), None);
    TestSteps(x, x);
    TakeThenIsEmptyLog(x);
    Prepend(PutOp(x), [TakeOp, IsEmptyOp], empty, e1, full);
    Prepend(IsEmptyOp, [PutOp(x), TakeOp, IsEmptyOp], empty, e0, empty);
    assert [e0] + ([e1] + [e2, e3]) == [e0, e1, e2, e3];
  }

  /** `put_once`, with the spawned `put` running before the main thread's
      `take()`: the cell starts empty, `take` returns the value put ("x" in the
      test) and the cell is empty again. */
  lemma PutOnce<T>(x: T)
    ensures var r := Execute([IsEmptyOp, PutOp(x), TakeOp, IsEmptyOp], DefaultCell<T>());
      r.stop == Finished && Replies(r.log) == [Flag(true), Unit, Value(x), Flag(true)]
      && r.final == EmptyCell()
  {
    PutOnceLog(x);
  }

  /** The first thread of `PutOnceTakeFirst`: the `take` waits on `full`, and
      the `put` that follows alone fills the cell and notifies `full`. */
  lemma TakeFirstWaits<T>(x: T)
    ensures Execute([IsEmptyOp, TakeOp], EmptyCell<T>())
         == Run([Event(IsEmptyOp, Flag(true), None)], EmptyCell(), Blocked(FullSignal))
    ensures Execute([PutOp(x)], EmptyCell()) == Run([Event(PutOp(x), Unit, Some(FullSignal))], NewCell(x), Finished)
  {
    var empty, full := EmptyCell<T>(), NewCell(x);
    var e0, e1 := Event(IsEmptyOp, Flag(true), None), Event(PutOp(x), Unit, Some(FullSignal));
    TestSteps(x, x);
    assert Execute([TakeOp], empty) == Run([], empty, Blocked(FullSignal));
    Prepend(IsEmptyOp, [TakeOp], empty, e0, empty);
    Prepend(PutOp(x), [], empty, e1, full);
  }

  /** `put_once`, with the main thread's `take()` running first: it waits on
      `full`, the `put` notifies `full`, and the retried critical section of
      `take` returns the value put and leaves the cell empty. */
  lemma PutOnceTakeFirst<T>(x: T)
    ensures Execute([IsEmptyOp, TakeOp], DefaultCell<T>())
         == Run([Event(IsEmptyOp, Flag(true), None)], EmptyCell(), Blocked(FullSignal))
    ensures Execute([PutOp(x)], EmptyCell()) == Run([Event(PutOp(x), Unit, Some(FullSignal))], NewCell(x), Finished)
    ensures Execute([TakeOp, IsEmptyOp], NewCell(x)).stop == Finished
    ensures Replies(Execute([TakeOp, IsEmptyOp], NewCell(x)).log) == [Value(x), Flag(true)]
    ensures Execute([TakeOp, IsEmptyOp], NewCell(x)).final == EmptyCell()
  {
    TakeFirstWaits(x);
    TakeThenIsEmptyLog(x);
  }

  /** A `put` into an empty cell followed by a `take`: the second half of
      `put_twice`. */
  lemma PutTakeLog<T>(y: T)
    ensures Execute([PutOp(y), TakeOp], EmptyCell<T>())
         == Run([Event(PutOp(y), Unit, Some(FullSignal)), Event(TakeOp, Value(y), Some(EmptySignal))], EmptyCell(), Finished)
  {
    var empty, full := EmptyCell<T>(), NewCell(y);
    var e2, e3 := Event(PutOp(y), Unit, Some(FullSignal)), Event(TakeOp, Value(y), Some(EmptySignal));
    TestSteps(y, y);
    Prepend(TakeOp, [], full, e3, empty);
    Prepend(PutOp(y), [TakeOp], empty, e2, full);
    assert [e2] + ([e3] + []) == [e2, e3];
  }

  /** The whole log of `PutTwice`. */
  lemma PutTwiceLog<T>(x: T, y: T)
    ensures Execute([PutOp(x), TakeOp, PutOp(y), TakeOp], EmptyCell<T>())
         == Run([Event(PutOp(x), Unit, Some(FullSignal)), Event(TakeOp, Value(x), Some(EmptySignal)),
                 Event(PutOp(y), Unit, Some(FullSignal)), Event(TakeOp, Value(y), Some(EmptySignal))],
                EmptyCell(), Finished)
  {
    var empty, full := EmptyCell<T>(), NewCell(x);
    var e0, e1 := Event(PutOp(x), Unit, Some(FullSignal)), Event(TakeOp, Value(x), Some(EmptySignal));
    var e2, e3 := Event(PutOp(y), Unit, Some(FullSignal)), Event(TakeOp, Value(y), Some(EmptySignal));
    TestSteps(x, y);
    PutTakeLog(y);
    Prepend(TakeOp, [PutOp(y), TakeOp], full, e1, empty);
    Prepend(PutOp(x), [TakeOp, PutOp(y), TakeOp], empty, e0, full);
    assert [e0] + ([e1] + [e2, e3]) == [e0, e1, e2, e3];
  }

  /** `put_twice`, in the order in which neither thread waits: the takes see
      the first value put ("x" in the test) and then the second ("y"). */
  lemma PutTwice<T>(x: T, y: T)
    ensures var r := Execute([PutOp(x), TakeOp, PutOp(y), TakeOp], DefaultCell<T>());
      r.stop == Finished && Replies(r.log) == [Unit, Value(x), Unit, Value(y)]
      && r.final == EmptyCell()
  {
    PutTwiceLog(x, y);
  }

  /** `put_twice`, with both puts first: the second `put` waits on `empty`
      while the first value is still held. */
  lemma PutTwiceBothPutsFirst<T>(x: T, y: T)
    ensures Execute([PutOp(x), PutOp(y)], DefaultCell<T>()).stop == Blocked(EmptySignal)
    ensures Execute([PutOp(x), PutOp(y)], DefaultCell<T>()).final == NewCell(x)
  {
    var empty, full := EmptyCell<T>(), NewCell(x);
    TestSteps(x, y);
    assert Execute([PutOp(y)], full) == Run([], full, Blocked(EmptySignal));
    Prepend(PutOp(x), [PutOp(y)], empty, Event(PutOp(x), Unit, Some(FullSignal)), full);
  }

  // ---------------------------------------------------------------------------
  // Other sequential scenarios: the try-variants and `swap`

  /** The critical sections the try-variant scenario runs. */
  lemma TrySteps<T>(u: T, v: T)
    ensures Step(TryTakeOp, EmptyCell<T>()) == Done(Maybe(None), Empty, None)
    ensures Step(TryPutOp(u), EmptyCell<T>()) == Done(Flag(true), Full(u), Some(FullSignal))
    ensures Step(TryPutOp(v), NewCell(u)) == Done(Flag(false), Full(u), None)
    ensures Step(TryReadOp, NewCell(u)) == Done(Maybe(Some(u)), Full(u), None)
  {
  }

  /** A refused `try_put` on a full cell followed by `try_read`: the cell keeps
      its value and nothing is notified. */
  lemma RefusedPutLog<T>(u: T, v: T)
    ensures Execute([TryPutOp(v), TryReadOp], NewCell(u))
         == Run([Event(TryPutOp(v), Flag(false), None), Event(TryReadOp, Maybe(Some(u)), None)], NewCell(u), Finished)
  {
    var full := NewCell(u);
    var e2, e3 := Event(TryPutOp(v), Flag(false), None), Event(TryReadOp, Maybe(Some(u)), None);
    TrySteps(u, v);
    Prepend(TryReadOp, [], full, e3, full);
    Prepend(TryPutOp(v), [TryReadOp], full, e2, full);
    assert [e2] + ([e3] + []) == [e2, e3];
  }

  /** The whole log of `TryVariants`. */
  lemma TryVariantsLog<T>(u: T, v: T)
    ensures Execute([TryTakeOp, TryPutOp(u), TryPutOp(v), TryReadOp], EmptyCell<T>())
         == Run([Event(TryTakeOp, Maybe(None), None), Event(TryPutOp(u), Flag(true), Some(FullSignal)),
                 Event(TryPutOp(v), Flag(false), None), Event(TryReadOp, Maybe(Some(u)), None)],
                NewCell(u), Finished)
  {
    var empty, full := EmptyCell<T>(), NewCell(u);
    var e0, e1 := Event(TryTakeOp, Maybe(None), None), Event(TryPutOp(u), Flag(true), Some(FullSignal));
    var e2, e3 := Event(TryPutOp(v), Flag(false), None), Event(TryReadOp, Maybe(Some(u)), None);
    TrySteps(u, v);
    RefusedPutLog(u, v);
    Prepend(TryPutOp(u), [TryPutOp(v), TryReadOp], empty, e1, full);
    Prepend(TryTakeOp, [TryPutOp(u), TryPutOp(v), TryReadOp], empty, e0, empty);
    assert [e0] + ([e1] + [e2, e3]) == [e0, e1, e2, e3];
  }

  /** Try-variants report instead of waiting: from an empty cell `try_take`
      answers `None`, the first `try_put` stores its value, the second is
      refused and the first value is still what `try_read` sees. */
  lemma TryVariants<T>(u: T, v: T)
    ensures var r := Execute([TryTakeOp, TryPutOp(u), TryPutOp(v), TryReadOp], EmptyCell<T>());
      r.stop == Finished && Replies(r.log) == [Maybe(None), Flag(true), Flag(false), Maybe(Some(u))]
      && r.final == NewCell(u)
  {
    TryVariantsLog(u, v);
  }

  /** A full cell holding `u`: `swap(v)` returns `u` and `try_read` then sees `v`. */
  lemma SwapThenTryRead<T>(u: T, v: T)
    ensures var r := Execute([SwapOp(v), TryReadOp], NewCell(u));
      r.stop == Finished && Replies(r.log) == [Value(u), Maybe(Some(v))] && r.final == NewCell(v)
  {
    var before, after := NewCell(u), NewCell(v);
    var e0, e1 := Event(SwapOp(v), Value(u), None), Event(TryReadOp, Maybe(Some(v)), None);
    assert Step(SwapOp(v), before) == Done(Value(u), Full(v), None);
    assert Step(TryReadOp, after) == Done(Maybe(Some(v)), Full(v), None);
    Prepend(TryReadOp, [], after, e1, after);
    Prepend(SwapOp(v), [TryReadOp], before, e0, after);
    assert [e0] + ([e1] + []) == [e0, e1];
  }
}

=== FILE: wakeup.dfy ===
/** How waits and notifications pair up.

    A call that waits sleeps on one condition variable and runs its critical
    section again when that variable is notified. Every notification is a
    `notify_one`, so the lemmas here are about one waiter per condition
    variable: every critical section that makes that waiter able to proceed
    notifies the variable it sleeps on. That holds for `take`, `put` and `read`.
    It does not hold for `swap` as written: on an empty cell it sleeps on
    `empty`, but the only critical sections that fill the cell notify `full`.

    With several waiters on `full` the pairing is weaker: a `read` woken by a
    fill, or a corrected swap woken by one, returns without notifying again and
    leaves the cell full, so another `take` or `read` waiting on `full` sleeps
    on (`ReadDoesNotPassOnWakeup`, `SwapIntendedDoesNotPassOnWakeup`).
 */
module Wakeup {
  import opened Mvar
  import opened Trace

  /** No lost wake-up for a single waiting `take`, `put` or `read`: a critical
      section that turns a cell on which such a call waits into one on which it
      proceeds notifies the very condition variable the call is waiting on. */
  lemma NoLostWakeup<T>(waiter: Op<T>, op: Op<T>, c: Cell<T>)
    requires !waiter.SwapOp?
    requires Step(waiter, c).Wait?
    requires Step(op, c).Done?
    requires !Step(waiter, After(c, Step(op, c))).Wait?
    ensures Step(op, c).notified == Some(Step(waiter, c).signal)
  {
  }

  /** No useless wake-ups: a notification on the condition variable a call
      waits on leaves the cell in a state in which that call proceeds. */
  lemma NotifiedWaiterProceeds<T>(waiter: Op<T>, op: Op<T>, c: Cell<T>)
    requires Step(waiter, c).Wait?
    requires Step(op, c).Done? && Step(op, c).notified == Some(Step(waiter, c).signal)
    ensures !Step(waiter, After(c, Step(op, c))).Wait?
  {
  }

  /** No critical section that starts on an empty cell notifies `empty`. */
  lemma NothingOnEmptyNotifiesEmpty<T>(op: Op<T>, c: Cell<T>)
    requires c.slot.Empty?
    requires Step(op, c).Done?
    ensures Step(op, c).notified != Some(EmptySignal)
  {
  }

  /** `swap` as written loses the wake-up `NoLostWakeup` promises for the other
      calls: on an empty cell it waits on `empty`; a `put` fills the cell, after
      which the swap could proceed, yet it notifies `full`, so the swap keeps
      sleeping on a full cell. */
  lemma SwapMissesFill<T>(v: T, w: T)
    ensures Step(SwapOp(v), EmptyCell<T>()) == Wait(EmptySignal)
    ensures Step(PutOp(w), EmptyCell<T>()) == Done(Unit, Full(w), Some(FullSignal))
    ensures After(EmptyCell<T>(), Step(PutOp(w), EmptyCell<T>())) == NewCell(w)
    ensures Step(SwapOp(v), NewCell(w)) == Done(Value(w), Full(v), None)
  {
  }

  /** A woken `read` does not pass the wake-up on: on the cell a fill leaves
      behind it returns the value, keeps the cell full and notifies nobody,
      although a `take` waiting on the same `full` could now proceed. */
  lemma ReadDoesNotPassOnWakeup<T>(v: T)
    ensures Step(PutOp(v), EmptyCell<T>()) == Done(Unit, Full(v), Some(FullSignal))
    ensures Step(TakeOp, EmptyCell<T>()) == Wait(FullSignal) && Step(ReadOp, EmptyCell<T>()) == Wait(FullSignal)
    ensures Step(ReadOp, NewCell(v)) == Done(Value(v), Full(v), None)
    ensures !Step(TakeOp, After(NewCell(v), Step(ReadOp, NewCell(v)))).Wait?
  {
  }

  /** `swap` with the wait it evidently intends: on an empty cell it waits, like
      `take`, on `full`; otherwise it is exactly `swap`. */
  function SwapIntended<T>(c: Cell<T>, value: T): (o: Outcome<T, T>)
    ensures o.Wait? <==> Swap(c, value).Wait?
    ensures o.Wait? ==> o.signal == Take(c).signal == FullSignal
    ensures !o.Wait? ==> o == Swap(c, value)
  {
    if c.poisoned then LockError
    else match c.slot
      case Full(held) => Done(held, Full(value), None)
      case Empty => Wait(FullSignal)
  }

  /** A woken corrected swap does not pass the wake-up on either: next to a
      `take` waiting on `full`, on the cell a fill leaves behind it returns the
      old value, keeps the cell full and notifies nobody, although the `take`,
      or a `read`, could now proceed. */
  lemma SwapIntendedDoesNotPassOnWakeup<T>(v: T, w: T)
    ensures SwapIntended(EmptyCell<T>(), w) == Wait(FullSignal) && Step(TakeOp, EmptyCell<T>()) == Wait(FullSignal)
    ensures Step(PutOp(v), EmptyCell<T>()) == Done(Unit, Full(v), Some(FullSignal))
    ensures SwapIntended(NewCell(v), w) == Done(v, Full(w), None)
    ensures !Step(TakeOp, NewCell(w)).Wait? && !Step(ReadOp, NewCell(w)).Wait?
  {
  }

  /** With the intended wait, a single waiting `swap` loses no wake-up either:
      every critical section after which it can proceed notifies `full`, and
      every notification of `full` lets it proceed. */
  lemma SwapIntendedNoLostWakeup<T>(value: T, op: Op<T>, c: Cell<T>)
    requires SwapIntended(c, value).Wait?
    requires Step(op, c).Done?
    ensures !SwapIntended(After(c, Step(op, c)), value).Wait?
        <==> Step(op, c).notified == Some(SwapIntended(c, value).signal)
  {
  }
}
